=== FILE: README.md ===
# StockTicker price-update engine, modelled in Dafny

This project models the core of the SignalR stock ticker sample: the class
`StockTicker`, which holds a fixed set of stocks, serves a snapshot of them,
and on every timer tick runs an update cycle. In a cycle every stock is
visited once. A random draw decides whether the stock is updated. An updated
stock moves by a random fraction (below 0.2%) of its price, rounded to the
cent, up or down. Every updated stock is then broadcast to all clients.

The model is pure and sequential:

- `rounding.dfy` (module `Rounding`): banker's rounding, the midpoint rule of
  .NET's `Math.Round(decimal, 2)`, with a definition-independent
  characterisation and its uniqueness, monotonicity and zero set.
- `mutation.dfy` (module `Mutation`): the per-stock rule `TryUpdateStockPrice`
  on prices counted in cents. The three random draws are explicit inputs:
  `r` decides whether to update, `p` scaled by `RangePercent = 0.002` is the
  percentage change, and `d` chooses the sign.
- `decimal.dfy` (module `DecimalPrices`): the same rule on decimal prices. It
  shows that a price on the 0.01 grid stays on it and that the decimal rule
  and the cent rule agree. This justifies counting cents.
- `ticker.dfy` (module `Ticker`): the store (a map from symbol to cents plus
  the store's enumeration order), construction from the three seeds,
  `GetAllStocks`, one update cycle with its "updating" flag, broadcasts as
  appends to a log, and runs of many cycles from construction.

Facts about the code that the model makes explicit:

- A tick that fires while a cycle runs is not dropped. The flag is tested
  inside the lock (`StockTicker.cs:61-63`) and cleared before the lock is
  released (line 74), so a timer callback that waited for the lock then runs a
  full cycle. The model is sequential: `Ticker.Reachable` proves the flag is
  clear at the start of every cycle reached from construction, so in a run
  where no exception leaves the loop of lines 66-72 the early return of line
  63 is never taken. An exception there (see "## Left out") skips line 74
  and leaves the flag set. It is unhandled on the timer's thread-pool
  thread, which under .NET's default policy ends the process; if the process
  survived, every later tick would return at line 63. The model covers
  neither.
- A stock is broadcast even when its rounded change is 0.00. Line 68
  broadcasts every stock for which `TryUpdateStockPrice` returns true, and
  that method returns true (line 95) whenever the draw of line 82 selects
  the stock, whatever the change of line 91 rounds to
  (`Mutation.UpdatedButUnchanged`; `Mutation.UpdatedWithZeroChange` gives one
  such draw).
- A move can exceed 0.2% of the price (the factor of lines 21-22) by up to
  half a cent, because the change is rounded to the cent at line 91
  (`Mutation.RelativeBound`; `Mutation.RangeExceededByRounding` gives a draw
  for which a price of 3.00 rises by 0.01). A bound is the price times 0.002,
  rounded half-to-even (`Mutation.MagnitudeBound`); it is not always reached
  (`Mutation.BoundNotReached`: at 7.50 it is 0.02, but every move is at most
  0.01).
- Rounding is half-to-even, the default of `Math.Round(decimal, int)` used at
  line 91. An exact half cent therefore rounds to the even cent; in
  particular a change of exactly 0.005 rounds to 0.00.

For a negative price the code's "positive" branch keeps `Math.Round(price *
percentChange, 2)`, which is at most zero, so the price does not rise; the
other branch negates it, so the price does not fall
(`Mutation.NegativePriceDirection`). Either may leave the price unchanged.
The contract of `TryUpdateStockPrice` is stated for every price. The
`Direction` and bound lemmas assume a non-negative price.

## Model

| member | source | states |
|---|---|---|
| `Rounding.RoundHalfEven` | SignalR.StockTicker/StockTicker.cs:91 | the rounded value is an integer at most one half away from the input, and the even one when the input lies exactly half-way |
| `Rounding.RoundHalfEvenUnique` | SignalR.StockTicker/StockTicker.cs:91 | any integer with that nearest-and-even-at-ties property is the rounded value, so the characterisation defines the rounding |
| `Rounding.RoundHalfEvenMonotone` | SignalR.StockTicker/StockTicker.cs:91 | a larger input never rounds to a smaller value |
| `Rounding.RoundHalfEvenZeroIff` | SignalR.StockTicker/StockTicker.cs:91 | an input rounds to zero if and only if it lies in [-1/2, 1/2], both ends included |
| `Rounding.RoundHalfEvenError` | SignalR.StockTicker/StockTicker.cs:91 | rounding moves a value by at most one half |
| `Mutation.TryUpdateStockPrice` | SignalR.StockTicker/StockTicker.cs:78-96 | the stock is updated exactly when the first draw is at most 0.1; a skipped stock keeps its price; for an updated stock the price difference, negated unless the sign draw exceeds 0.51, is the banker's rounding of price times percentage change |
| `Mutation.OutcomeDetermined` | SignalR.StockTicker/StockTicker.cs:78-96 | any outcome meeting that relational description is the one the rule computes: the same price and draws always give the same decision and the same new price |
| `Mutation.ChangeMagnitude` | SignalR.StockTicker/StockTicker.cs:91 | the unsigned change in cents; its properties are carried by `Mutation.ChangeMagnitudeBounds` (between 0 and round(price * 0.002) for a non-negative price), `Mutation.UpdatedButUnchanged` (zero exactly when price * percentChange is at most half a cent in size) and the contract of `Mutation.TryUpdateStockPrice` (the banker's rounding of price * percentChange) |
| `Mutation.ChangeMagnitudeBounds` | SignalR.StockTicker/StockTicker.cs:89-91 | for a non-negative price and a draw in [0, 1) the rounded change lies between 0 and the price times 0.002, rounded the same way |
| `Mutation.MagnitudeBound` | SignalR.StockTicker/StockTicker.cs:89-94 | for a non-negative price and draws in [0, 1), one update moves the price by at most round(price * 0.002) cents either way |
| `Mutation.RelativeBound` | SignalR.StockTicker/StockTicker.cs:89-94 | under the same conditions a move exceeds price * 0.002 by at most half a cent |
| `Mutation.RangeExceededByRounding` | SignalR.StockTicker/StockTicker.cs:21-22 | for some draw a price of 3.00 rises by 0.01, more than 0.2% of it, so the range of line 21 holds only up to rounding |
| `Mutation.BoundNotReached` | SignalR.StockTicker/StockTicker.cs:89-91 | at a price of 7.50 the rounded bound round(price * 0.002) is 2 cents, yet for every draw in [0, 1) the change is at most 1 cent |
| `Mutation.Direction` | SignalR.StockTicker/StockTicker.cs:90-94 | for a non-negative price the price rises exactly when the stock is selected, the sign draw exceeds 0.51 and the rounded change is non-zero, and falls exactly when it is selected, the sign draw is at most 0.51 and the rounded change is non-zero |
| `Mutation.NegativePriceDirection` | SignalR.StockTicker/StockTicker.cs:90-94 | for a negative price the rounded change is at most zero, so a sign draw above 0.51 never raises the price and one at most 0.51 never lowers it |
| `Mutation.UpdatedButUnchanged` | SignalR.StockTicker/StockTicker.cs:81-95 | the rule reports an update while keeping the price exactly when the stock is selected and price * percentChange is at most half a cent in size |
| `Mutation.UpdatedWithZeroChange` | SignalR.StockTicker/StockTicker.cs:88-95 | for some draw (a zero percentage draw) the seed price 30.31 is reported as updated with its price unchanged |
| `DecimalPrices.Round2` | SignalR.StockTicker/StockTicker.cs:91 | rounding to two places yields a whole number of cents within 0.005 of the input, and the even number of cents when the input lies exactly half-way between two |
| `DecimalPrices.TryUpdateDecimal` | SignalR.StockTicker/StockTicker.cs:82-94 | the rule on decimal prices; its properties are carried by `DecimalPrices.DecimalAgreesWithCents` (same decision as the cent rule, and the cent result divided by 100, on every price n/100) and `DecimalPrices.GridPreserved` (a price on the 0.01 grid stays on it) |
| `DecimalPrices.DecimalAgreesWithCents` | SignalR.StockTicker/StockTicker.cs:88-94 | on a price of n/100 the decimal rule makes the same decision as the cent rule and its new price is the cent result divided by 100 |
| `DecimalPrices.GridPreserved` | SignalR.StockTicker/StockTicker.cs:91-94 | a price that is a multiple of 0.01 is still one after an update, for all draws |
| `DecimalPrices.SeedsOnGrid` | SignalR.StockTicker/StockTicker.cs:37-39 | the three seed prices are multiples of 0.01 and equal 3031, 57818 and 57030 cents |
| `Ticker.TryAdd` | SignalR.StockTicker/StockTicker.cs:41 | adding a stock adds its symbol to the key set, never changes a present entry, sets the price of a new symbol, and keeps each symbol listed once |
| `Ticker.AddAll` | SignalR.StockTicker/StockTicker.cs:41 | adding a list of stocks leaves the previous entries alone, the key set becomes the old keys plus the listed symbols, and a symbol not stored before gets the price of its first listing |
| `Ticker.SeedingSteps` | SignalR.StockTicker/StockTicker.cs:34-41 | clearing the store and adding the three seeds one at a time yields exactly MSFT 30.31, APPL 578.18, GOOG 570.30, each once |
| `Ticker.Init` | SignalR.StockTicker/StockTicker.cs:30-45 | the constructed ticker lists each symbol once, is not updating and has broadcast nothing |
| `Ticker.GetAllStocks` | SignalR.StockTicker/StockTicker.cs:54-57 | the snapshot has one entry per stored symbol, each with that symbol's current price, no symbol twice, and every stored stock appears in it |
| `Ticker.InitialSnapshot` | SignalR.StockTicker/StockTicker.cs:35-41 | before any tick the snapshot holds exactly the three seeds with their initial prices, listed in the model's enumeration order (the seeding order) |
| `Ticker.Step` | SignalR.StockTicker/StockTicker.cs:68-71 | visiting one stock changes no other stock, keeps the key set, and either leaves the log alone or appends that stock with its new price |
| `Ticker.Visit` | SignalR.StockTicker/StockTicker.cs:66-72 | a pass keeps the key set, the enumeration order and the flag, only appends to the log, leaves unvisited stocks alone and broadcasts only visited stocks |
| `Ticker.VisitPrices` | SignalR.StockTicker/StockTicker.cs:66-72 | over distinct symbols each visited stock ends with the price the rule computes from its own price and its own draws |
| `Ticker.VisitBroadcasts` | SignalR.StockTicker/StockTicker.cs:66-72 | over distinct symbols each visited stock is broadcast exactly once if the rule reports an update and never otherwise |
| `Ticker.VisitCarriesFinalPrice` | SignalR.StockTicker/StockTicker.cs:98-101 | every broadcast of a pass carries the price its stock has at the end of the pass |
| `Ticker.UpdateStockPrices` | SignalR.StockTicker/StockTicker.cs:59-76 | with the flag already set the cycle changes nothing; otherwise the flag is clear afterwards; either way the key set and order are kept, the store stays well formed and the log only grows |
| `Ticker.CycleSpec` | SignalR.StockTicker/StockTicker.cs:59-76 | a cycle from an idle state gives the i-th stock the rule's price for the i-th draws, broadcasts it exactly once if updated and otherwise never, and every broadcast names a stored stock with its post-cycle price |
| `Ticker.ChangedImpliesBroadcast` | SignalR.StockTicker/StockTicker.cs:66-72 | a stock whose price changed in a cycle was broadcast once, and a stock not broadcast kept its price |
| `Ticker.CycleBound` | SignalR.StockTicker/StockTicker.cs:66-72 | with non-negative prices and draws in [0, 1) every stock moves in one cycle by at most round(price * 0.002) cents |
| `Ticker.Run` | SignalR.StockTicker/StockTicker.cs:59-76 | any number of cycles keeps the key set, the order and well-formedness, keeps a clear flag clear and only grows the log |
| `Ticker.Reachable` | SignalR.StockTicker/StockTicker.cs:61-64 | every state reached from construction by cycles holds exactly MSFT, APPL and GOOG, once each, with the flag clear, so the guard's early return is never taken |

## Left out

- The timer (`System.Threading.Timer`, 250 ms) and the lazily created singleton: runtime plumbing. A run of ticks is modelled as a sequence of cycles (`Ticker.Run`).
- `lock` and `volatile`: the model is sequential. Concurrent readers that see a half-updated store are not modelled.
- `System.Random` and the per-call generator seeded with the integer part of the price: the draws are unconstrained inputs, so the correlation between stocks with the same integer price is not modelled.
- The conversion of the `double` percentage to `decimal`: the percentage is an exact real.
- The range and precision limits of `decimal` (and the overflow exception beyond them): prices are unbounded integers counting cents.
- Mutation.TryUpdateStockPrice: computes a normal update at every price, whereas the cast `(int)Math.Floor(stock.Price)` (`StockTicker.cs:88`) throws an overflow exception when the integer part of the price lies outside the 32-bit range (at least 2,147,483,648 or below -2,147,483,648). In the code the exception leaves the loop of lines 66-72 with no `finally`, so line 74 is skipped and the flag stays set. The exception is unhandled on the timer's thread-pool thread (the callback registered at line 43), which under .NET's default policy ends the process; if the process survived, every later tick would return at line 63. `Ticker.Reachable` does not cover such a run; it speaks only of runs in which no exception leaves the loop.
- `Clients.All.updateStockPrice`: a dynamic call into SignalR, modelled as appending the stock and its price to a log. Delivery, and an exception thrown by the call, are not modelled.
- The enumeration order of the concurrent dictionary: modelled as the seeding order. The per-stock properties do not depend on it, except for which draws go to which stock.
- `StockTickerHub.GetAllStocks` only forwards to `StockTicker.GetAllStocks`. `Startup` only configures CORS and SignalR. Neither is modelled.
- `GetAllStocks` returns copies: each entry is a symbol and the price at the time of the call. The code returns `_stocks.Values` (`StockTicker.cs:56`), the live `Stock` objects that line 94 changes in place, so a caller holding the result sees later price changes. The model takes `Stock` to be a class whose `Price +=` updates the stored object; `Models/Stock.cs` is not part of this model.
- The draws of `Mutation.RangeExceededByRounding` and `Mutation.UpdatedWithZeroChange` are chosen freely. In the code the percentage and sign draws come from a generator seeded with the integer part of the price (line 88), so whether those exact draws occur at those prices is not modelled.
- No floor on prices: the code enforces none and the model adds none.

=== FILE: decimal.dfy ===
/**
 The mutation rule on decimal prices, as the ticker states it: the change is
 `Math.Round(price * percentChange, 2)` and is added to a decimal price.

 This module connects that decimal reading with the cent-valued rule of
 module `Mutation`: for a price on the 0.01 grid both give the same result,
 and the result is again on the grid. Since every seed price is on the grid,
 counting prices in cents loses nothing.
 */
module DecimalPrices {
  import opened Rounding
  import opened Mutation

  /** `x` is a whole number of cents. */
  predicate OnGrid(x: real) {
    (x * 100.0).Floor as real == x * 100.0
  }

  /** Every whole number of cents is on the grid. */
  lemma CentsOnGrid(n: int)
    ensures OnGrid(n as real / 100.0)
  {
    assert (n as real / 100.0) * 100.0 == n as real;
  }

  /** `Math.Round(x, 2)` with the default midpoint rule (ties to even): the
      nearest whole number of cents, and the even one when `x` lies exactly
      half-way between two. */
  function Round2(x: real): (y: real)
    ensures OnGrid(y)
    ensures x - 0.005 <= y <= x + 0.005
    ensures IsRoundHalfEven(x * 100.0, (y * 100.0).Floor)
  {
    var n := RoundHalfEven(x * 100.0);
    RoundHalfEvenError(x * 100.0);
    CentsOnGrid(n);
    assert (n as real / 100.0) * 100.0 == n as real;
    n as real / 100.0
  }

  /** The unrounded decimal change: the price times the percentage change. */
  function DecimalChange(price: real, p: real): real {
    price * PercentChange(p)
  }

  /** The mutation rule with a decimal price: skip when `r` exceeds the
      threshold, otherwise add the rounded change, negated unless `d`
      exceeds the rise threshold. */
  function TryUpdateDecimal(price: real, dr: Draws): (bool, real) {
    if dr.r > UpdateThreshold then
      (false, price)
    else
      var change := Round2(DecimalChange(price, dr.p));
      var signed := if dr.d > RiseThreshold then change else -change;
      (true, price + signed)
  }

  /** A grid price is a whole number of cents divided by one hundred. */
  lemma GridIsCents(x: real)
    requires OnGrid(x)
    ensures x == (x * 100.0).Floor as real / 100.0
  {
  }

  /** On a price of `cents / 100`, the decimal rule and the cent rule agree:
      same decision, and the decimal result is the cent result divided by
      one hundred. */
  lemma DecimalAgreesWithCents(cents: int, dr: Draws)
    ensures var o := TryUpdateStockPrice(cents, dr);
            TryUpdateDecimal(cents as real / 100.0, dr) == (o.updated, o.price as real / 100.0)
  {
    if dr.r <= UpdateThreshold {
      var price := cents as real / 100.0;
      var pc := PercentChange(dr.p);
      assert DecimalChange(price, dr.p) * 100.0 == ExactChange(cents, dr.p) by {
        assert price * 100.0 == cents as real;
        assert DecimalChange(price, dr.p) == price * pc;
        assert ExactChange(cents, dr.p) == cents as real * pc;
      }
      var m := ChangeMagnitude(cents, dr.p);
      assert Round2(DecimalChange(price, dr.p)) == m as real / 100.0;
      var o := TryUpdateStockPrice(cents, dr);
      if dr.d > RiseThreshold {
        assert TryUpdateDecimal(price, dr) == (true, price + m as real / 100.0);
        assert o.price == cents + m;
      } else {
        assert TryUpdateDecimal(price, dr) == (true, price - m as real / 100.0);
        assert o.price == cents - m;
      }
    }
  }

  /** A price on the 0.01 grid stays on it after an update, whatever the
      draws. */
  lemma GridPreserved(price: real, dr: Draws)
    requires OnGrid(price)
    ensures OnGrid(TryUpdateDecimal(price, dr).1)
  {
    var cents := (price * 100.0).Floor;
    GridIsCents(price);
    DecimalAgreesWithCents(cents, dr);
    CentsOnGrid(TryUpdateStockPrice(cents, dr).price);
  }

  /** The seed prices 30.31, 578.18 and 570.30 are on the grid and are the
      cent counts 3031, 57818 and 57030. */
  lemma SeedsOnGrid()
    ensures OnGrid(30.31) && OnGrid(578.18) && OnGrid(570.30)
    ensures 30.31 == 3031 as real / 100.0
    ensures 578.18 == 57818 as real / 100.0
    ensures 570.30 == 57030 as real / 100.0
  {
    assert (30.31 * 100.0).Floor == 3031;
    assert (578.18 * 100.0).Floor == 57818;
    assert (570.30 * 100.0).Floor == 57030;
  }
}

=== FILE: mutation.dfy ===
/**
 The per-stock mutation rule of the ticker (`TryUpdateStockPrice`).

 Prices are integers counting cents. Every seed price has two decimal places
 and every change is rounded to two decimal places, so a cent count represents
 each price the ticker can hold exactly (see module `DecimalPrices` for the
 correspondence with decimal amounts).

 The three random draws of one call are explicit inputs:
 - `r`, the update-or-not draw of the ticker's shared generator;
 - `p`, the first draw of the per-call generator, scaled by `RangePercent`
   into the percentage change;
 - `d`, the second draw of the per-call generator, which chooses the sign.
 */
module Mutation {
  import opened Rounding

  /** A stock is considered for an update only when `r` does not exceed this. */
  const UpdateThreshold: real := 0.1
  /** The largest fraction of its price by which a stock moves in one update. */
  const RangePercent: real := 0.002
  /** The change is applied upwards when `d` exceeds this, downwards otherwise. */
  const RiseThreshold: real := 0.51

  datatype Draws = Draws(r: real, p: real, d: real)

  /** The range of `NextDouble`: the half-open unit interval. */
  predicate InUnitInterval(x: real) {
    0.0 <= x < 1.0
  }

  predicate ValidDraws(dr: Draws) {
    InUnitInterval(dr.r) && InUnitInterval(dr.p) && InUnitInterval(dr.d)
  }

  /** Whether the stock was updated (and is therefore broadcast), and its
      price afterwards. */
  datatype Outcome = Outcome(updated: bool, price: int)

  /** The percentage change chosen by the draw `p`: in [0, RangePercent) for
      a draw in the unit interval. */
  function PercentChange(p: real): real {
    p * RangePercent
  }

  /** The unrounded change in cents: the price times the percentage change. */
  function ExactChange(cents: int, p: real): real {
    cents as real * PercentChange(p)
  }

  /** The unsigned change in cents: the price times the percentage change,
      rounded to the cent, ties to even. */
  function ChangeMagnitude(cents: int, p: real): int {
    RoundHalfEven(ExactChange(cents, p))
  }

  /** One application of the mutation rule to a price of `cents`.
      The stock is updated exactly when `r` is at most the threshold; an
      update moves the price by the banker's-rounded `price * percentChange`,
      kept as it is when `d` exceeds the rise threshold and negated otherwise;
      a skipped stock keeps its price. */
  function TryUpdateStockPrice(cents: int, dr: Draws): (o: Outcome)
    ensures o.updated <==> dr.r <= UpdateThreshold
    ensures !o.updated ==> o.price == cents
    ensures o.updated ==>
              IsRoundHalfEven(ExactChange(cents, dr.p),
                              if dr.d > RiseThreshold then o.price - cents else cents - o.price)
  {
    if dr.r > UpdateThreshold then
      Outcome(false, cents)
    else
      var change := ChangeMagnitude(cents, dr.p);
      var signed := if dr.d > RiseThreshold then change else -change;
      Outcome(true, cents + signed)
  }

  /** The rule is a function of the price and the draws: the same inputs give
      the same decision and the same new price, and the relational
      description in the contract of `TryUpdateStockPrice` admits no other
      outcome. */
  lemma {:induction false} OutcomeDetermined(cents: int, dr: Draws, o: Outcome)
    requires o.updated <==> dr.r <= UpdateThreshold
    requires !o.updated ==> o.price == cents
    requires o.updated ==>
               IsRoundHalfEven(ExactChange(cents, dr.p),
                               if dr.d > RiseThreshold then o.price - cents else cents - o.price)
    ensures o == TryUpdateStockPrice(cents, dr)
  {
    if o.updated {
      RoundHalfEvenUnique(ExactChange(cents, dr.p),
                          if dr.d > RiseThreshold then o.price - cents else cents - o.price);
    }
  }

  /** The product of two non-negative reals is non-negative. */
  lemma ProductNonNegative(a: real, b: real)
    requires 0.0 <= a && 0.0 <= b
    ensures 0.0 <= a * b
  {
  }

  /** For a non-negative price and a draw in the unit interval, the
      unrounded change lies between zero and the price times `RangePercent`. */
  lemma ExactChangeRange(cents: int, p: real)
    requires 0 <= cents
    requires InUnitInterval(p)
    ensures 0.0 <= ExactChange(cents, p) <= cents as real * RangePercent
  {
    var c, pc := cents as real, PercentChange(p);
    ProductNonNegative(c, pc);
    ProductNonNegative(c, RangePercent - pc);
    assert c * RangePercent - c * pc == c * (RangePercent - pc);
  }

  /** For a draw `p` in the unit interval and a non-negative price, the
      rounded change is at least zero and at most the price times
      `RangePercent`, rounded the same way. */
  lemma ChangeMagnitudeBounds(cents: int, p: real)
    requires 0 <= cents
    requires InUnitInterval(p)
    ensures 0 <= ChangeMagnitude(cents, p) <= RoundHalfEven(cents as real * RangePercent)
  {
    ExactChangeRange(cents, p);
    RoundHalfEvenNonNegative(ExactChange(cents, p));
    RoundHalfEvenMonotone(ExactChange(cents, p), cents as real * RangePercent);
  }

  /** Magnitude bound of one update: for a non-negative price and draws in
      range, the price moves by at most `round(price * RangePercent)` cents
      in either direction. */
  lemma MagnitudeBound(cents: int, dr: Draws)
    requires 0 <= cents
    requires ValidDraws(dr)
    ensures var o := TryUpdateStockPrice(cents, dr);
            var bound := RoundHalfEven(cents as real * RangePercent);
            cents - bound <= o.price <= cents + bound
  {
    ChangeMagnitudeBounds(cents, dr.p);
  }

  /** The bound measured against the unrounded range: a move can exceed
      `price * RangePercent` by at most half a cent, the rounding error. */
  lemma RelativeBound(cents: int, dr: Draws)
    requires 0 <= cents
    requires ValidDraws(dr)
    ensures var delta := (TryUpdateStockPrice(cents, dr).price - cents) as real;
            -(cents as real * RangePercent + 0.5) <= delta <= cents as real * RangePercent + 0.5
  {
    var c := cents as real;
    ChangeMagnitudeBounds(cents, dr.p);
    RoundHalfEvenError(c * RangePercent);
  }

  /** The half-cent of slack in `RelativeBound` is used: for some draws a
      price of 3.00 rises by 0.01, more than 0.2% of it (0.006). The draws
      are taken as unconstrained here; in the ticker the percentage and sign
      draws of a stock come from a generator seeded with the integer part of
      its price, so whether these particular draws occur at 3.00 is not
      modelled. */
  lemma RangeExceededByRounding()
    ensures var o := TryUpdateStockPrice(300, Draws(0.0, 0.9, 0.6));
            o.updated && o.price == 301 && (o.price - 300) as real > 300.0 * RangePercent
  {
    assert ExactChange(300, 0.9) == 0.54;
    assert IsRoundHalfEven(0.54, 1);
    RoundHalfEvenUnique(0.54, 1);
  }

  /** The bound of `MagnitudeBound` is not always reached: at a price of 7.50
      it is round(1.5) = 2 cents, but since the draw `p` stays below one the
      unrounded change stays below 1.5 cents and rounds to at most 1. */
  lemma BoundNotReached(p: real)
    requires InUnitInterval(p)
    ensures ChangeMagnitude(750, p) <= 1 < RoundHalfEven(750.0 * RangePercent) == 2
  {
    assert ExactChange(750, p) < 1.5 by {
      ProductNonNegative(750.0, (1.0 - p) * RangePercent);
      assert ExactChange(750, p) == 750.0 * (p * RangePercent);
    }
    assert IsRoundHalfEven(ExactChange(750, p), ChangeMagnitude(750, p));
    assert 750.0 * RangePercent == 1.5;
    assert IsRoundHalfEven(1.5, 2);
    RoundHalfEvenUnique(1.5, 2);
  }

  /** Direction of a change for a non-negative price: the price rises exactly
      when the stock is updated, the sign draw exceeds the threshold and the
      rounded change is not zero; it falls exactly when the stock is updated,
      the sign draw does not exceed the threshold and the rounded change is
      not zero. */
  lemma Direction(cents: int, dr: Draws)
    requires 0 <= cents
    requires InUnitInterval(dr.p)
    ensures var o := TryUpdateStockPrice(cents, dr);
            && (o.price > cents <==> dr.r <= UpdateThreshold && dr.d > RiseThreshold && ChangeMagnitude(cents, dr.p) != 0)
            && (o.price < cents <==> dr.r <= UpdateThreshold && dr.d <= RiseThreshold && ChangeMagnitude(cents, dr.p) != 0)
  {
    ChangeMagnitudeBounds(cents, dr.p);
  }

  /** Direction of a change for a negative price: the rounded
      `price * percentChange` is then at most zero, so the "positive" sign
      draw never raises the price and the other sign never lowers it. Both
      may leave it unchanged. */
  lemma NegativePriceDirection(cents: int, dr: Draws)
    requires cents < 0
    requires InUnitInterval(dr.p)
    ensures var o := TryUpdateStockPrice(cents, dr);
            && (dr.d > RiseThreshold ==> o.price <= cents)
            && (dr.d <= RiseThreshold ==> o.price >= cents)
  {
    var c, pc := cents as real, PercentChange(dr.p);
    ProductNonNegative(-c, pc);
    assert ExactChange(cents, dr.p) <= 0.0 by {
      assert (-c) * pc == -(c * pc);
    }
    RoundHalfEvenMonotone(ExactChange(cents, dr.p), 0.0);
    RoundHalfEvenOfInteger(0);
  }

  /** An update need not change the price: the stock is reported as updated
      while keeping its price exactly when it was selected and
      `price * percentChange` is at most half a cent in size (half a cent
      itself rounds to the even neighbour, zero). */
  lemma UpdatedButUnchanged(cents: int, dr: Draws)
    ensures var o := TryUpdateStockPrice(cents, dr);
            (o.updated && o.price == cents) <==>
              (dr.r <= UpdateThreshold && -0.5 <= ExactChange(cents, dr.p) <= 0.5)
  {
    RoundHalfEvenZeroIff(ExactChange(cents, dr.p));
  }

  /** A change of price implies an update, but not conversely: for some draws
      (here a zero percentage draw) the seed price 30.31 is updated, and so
      broadcast, while its price stays 30.31. The draws are taken as
      unconstrained; the zero percentage draw stands for any draw that
      `UpdatedButUnchanged` admits. */
  lemma UpdatedWithZeroChange()
    ensures TryUpdateStockPrice(3031, Draws(0.05, 0.0, 0.6)) == Outcome(true, 3031)
  {
    RoundHalfEvenOfInteger(0);
  }
}

=== FILE: rounding.dfy ===
/**
 Rounding of a real quantity to the nearest integer with ties broken towards
 the even neighbour ("banker's rounding").

 This is the midpoint rule `MidpointRounding.ToEven` that .NET's
 `Math.Round(decimal, 2)` applies by default. Measured in cents, rounding a
 decimal amount to two places is rounding the amount in cents to an integer,
 so the price model only ever needs `RoundHalfEven` on reals.
 */
module Rounding {

  function Abs(x: real): real {
    if x < 0.0 then -x else x
  }

  /** `n` is a nearest integer to `x`, and the even one when `x` lies exactly
      half-way between two integers. This is the defining property of
      banker's rounding, independent of how it is computed. */
  predicate IsRoundHalfEven(x: real, n: int) {
    var dist := Abs(x - n as real);
    dist <= 0.5 && (dist == 0.5 ==> n % 2 == 0)
  }

  /** Banker's rounding, computed from the floor and the fractional part. */
  function RoundHalfEven(x: real): (n: int)
    ensures IsRoundHalfEven(x, n)
  {
    var f := x.Floor;
    var frac := x - f as real;
    if frac < 0.5 then f
    else if frac > 0.5 then f + 1
    else if f % 2 == 0 then f
    else f + 1
  }

  /** The defining property pins the rounded value down: there is exactly one
      banker's rounding of every real. */
  lemma RoundHalfEvenUnique(x: real, n: int)
    requires IsRoundHalfEven(x, n)
    ensures n == RoundHalfEven(x)
  {
    // Two different roundings would be neighbouring integers, both exactly
    // half-way from x and both even, which neighbours cannot be.
    assert IsRoundHalfEven(x, RoundHalfEven(x));
  }

  /** An integer rounds to itself. */
  lemma RoundHalfEvenOfInteger(n: int)
    ensures RoundHalfEven(n as real) == n
  {
    assert IsRoundHalfEven(n as real, n);
    RoundHalfEvenUnique(n as real, n);
  }

  /** Rounding is monotone. */
  lemma RoundHalfEvenMonotone(x: real, y: real)
    requires x <= y
    ensures RoundHalfEven(x) <= RoundHalfEven(y)
  {
    var n, m := RoundHalfEven(x), RoundHalfEven(y);
    if x == y {
    } else {
      // Were n > m, then n - 1/2 <= x < y <= m + 1/2 <= n - 1/2.
      assert IsRoundHalfEven(x, n) && IsRoundHalfEven(y, m);
    }
  }

  /** A non-negative real never rounds to a negative integer. */
  lemma RoundHalfEvenNonNegative(x: real)
    requires 0.0 <= x
    ensures 0 <= RoundHalfEven(x)
  {
    RoundHalfEvenOfInteger(0);
    RoundHalfEvenMonotone(0.0, x);
  }

  /** Exactly the reals in [-1/2, 1/2] round to zero; both end points do,
      because zero is the even neighbour. */
  lemma RoundHalfEvenZeroIff(x: real)
    ensures RoundHalfEven(x) == 0 <==> -0.5 <= x <= 0.5
  {
    if -0.5 <= x <= 0.5 {
      assert IsRoundHalfEven(x, 0);
      RoundHalfEvenUnique(x, 0);
    }
  }

  /** Rounding moves a value by at most one half. */
  lemma RoundHalfEvenError(x: real)
    ensures x - 0.5 <= RoundHalfEven(x) as real <= x + 0.5
  {
    assert IsRoundHalfEven(x, RoundHalfEven(x));
  }
}

=== FILE: ticker.dfy ===
/**
 The stock ticker: a fixed store of stocks, the snapshot query, and the
 update cycle with its "in progress" flag and its broadcasts.

 The store is a map from symbol to price in cents together with the order in
 which the store enumerates its entries. Broadcasting a stock to all
 connected clients is modelled as appending the stock, with the price it has
 at that moment, to a log; the clients and their transport are not modelled.
 */
module Ticker {
  import opened Rounding
  import opened Mutation

  datatype Stock = Stock(symbol: string, price: int)

  /** The ticker's state: current prices, the enumeration order of the store,
      the "updating stock prices" flag, and every broadcast sent so far. */
  datatype Ticker = Ticker(stocks: map<string, int>, order: seq<string>, updating: bool, log: seq<Stock>)

  predicate Distinct(s: seq<string>) {
    forall i, j :: 0 <= i < j < |s| ==> s[i] != s[j]
  }

  /** The enumeration order lists every symbol of the store exactly once. */
  ghost predicate Valid(t: Ticker) {
    && Distinct(t.order)
    && (forall k :: k in t.stocks <==> k in t.order)
  }

  /** The three stocks the ticker is constructed with. */
  const Seeds: seq<Stock> := [Stock("MSFT", 3031), Stock("APPL", 57818), Stock("GOOG", 57030)]

  /** Adds a stock unless its symbol is already present, in which case the
      store is left as it is (the first stock with a symbol wins). */
  function TryAdd(t: Ticker, s: Stock): (r: Ticker)
    ensures Valid(t) ==> Valid(r)
    ensures r.stocks.Keys == t.stocks.Keys + {s.symbol}
    ensures forall k :: k in t.stocks ==> r.stocks[k] == t.stocks[k]
    ensures s.symbol !in t.stocks ==> r.stocks[s.symbol] == s.price
    ensures r.updating == t.updating && r.log == t.log
  {
    if s.symbol in t.stocks then t
    else t.(stocks := t.stocks[s.symbol := s.price], order := t.order + [s.symbol])
  }

  /** `ss[i]` is the first stock of `ss` listing its symbol. */
  predicate FirstListing(ss: seq<Stock>, i: int)
    requires 0 <= i < |ss|
  {
    forall j :: 0 <= j < i ==> ss[j].symbol != ss[i].symbol
  }

  /** Adds the stocks one after the other with `TryAdd`. A symbol that was
      not yet stored gets the price of its first listing. */
  function AddAll(t: Ticker, ss: seq<Stock>): (r: Ticker)
    ensures Valid(t) ==> Valid(r)
    ensures r.stocks.Keys == t.stocks.Keys + set s | s in ss :: s.symbol
    ensures forall k :: k in t.stocks ==> r.stocks[k] == t.stocks[k]
    ensures forall i :: 0 <= i < |ss| && ss[i].symbol !in t.stocks && FirstListing(ss, i) ==>
              r.stocks[ss[i].symbol] == ss[i].price
    ensures r.updating == t.updating && r.log == t.log
    decreases |ss|
  {
    if |ss| == 0 then t
    else
      var t1 := TryAdd(t, ss[0]);
      var r := AddAll(t1, ss[1..]);
      assert forall s :: s in ss <==> s == ss[0] || s in ss[1..];
      assert forall i :: 1 <= i < |ss| && FirstListing(ss, i) ==> FirstListing(ss[1..], i - 1) by {
        forall i | 1 <= i < |ss| && FirstListing(ss, i)
          ensures FirstListing(ss[1..], i - 1)
        {
          assert forall j :: 0 <= j < i - 1 ==> ss[1..][j] == ss[j + 1];
        }
      }
      r
  }

  /** The stores reached after seeding none, one and two of the seeds. */
  const Seeded0: Ticker := Ticker(map[], [], false, [])
  const Seeded1: Ticker := Ticker(map["MSFT" := 3031], ["MSFT"], false, [])
  const Seeded2: Ticker := Ticker(map["MSFT" := 3031, "APPL" := 57818], ["MSFT", "APPL"], false, [])

  /** A freshly constructed ticker: MSFT at 30.31, APPL at 578.18 and GOOG at
      570.30, one entry per symbol, not updating, nothing broadcast. */
  function Init(): (t: Ticker)
    ensures Valid(t)
    ensures !t.updating && t.log == []
  {
    Ticker(map["MSFT" := 3031, "APPL" := 57818, "GOOG" := 57030], ["MSFT", "APPL", "GOOG"], false, [])
  }

  /** Construction: clearing the store and adding the three seeds one after
      the other with `TryAdd` yields exactly the fresh ticker. The symbols are
      pairwise different, so every seed is added and none is dropped. */
  lemma SeedingSteps()
    ensures AddAll(Seeded0, Seeds) == Init()
  {
    SeedStep0();
    SeedStep1();
    SeedStep2();
    assert Seeds[1..][1..][1..] == [];
  }

  /** Each seed symbol is new when it is added, so `TryAdd` stores it. */
  lemma SeedStep0()
    ensures TryAdd(Seeded0, Seeds[0]) == Seeded1
  {
  }

  lemma SeedStep1()
    ensures TryAdd(Seeded1, Seeds[1]) == Seeded2
  {
    assert "APPL" !in Seeded1.stocks;
  }

  lemma SeedStep2()
    ensures TryAdd(Seeded2, Seeds[2]) == Init()
  {
    assert "GOOG" !in Seeded2.stocks;
  }

  /** The number of distinct elements of a duplicate-free sequence is its
      length. */
  lemma {:induction false} DistinctCardinality(s: seq<string>)
    requires Distinct(s)
    ensures |set x | x in s| == |s|
  {
    if |s| > 0 {
      DistinctCardinality(s[1..]);
      assert (set x | x in s) == (set x | x in s[1..]) + {s[0]};
      assert s[0] !in s[1..];
    }
  }

  /** The snapshot query: every stock of the store with its current price,
      each symbol once, in enumeration order. Reading the store changes
      nothing. */
  function GetAllStocks(t: Ticker): (r: seq<Stock>)
    requires Valid(t)
    ensures |r| == |t.stocks|
    ensures forall i :: 0 <= i < |r| ==> r[i].symbol in t.stocks && r[i].price == t.stocks[r[i].symbol]
    ensures forall k :: k in t.stocks ==> Stock(k, t.stocks[k]) in r
    ensures forall i, j :: 0 <= i < j < |r| ==> r[i].symbol != r[j].symbol
  {
    var r := seq(|t.order|, i requires 0 <= i < |t.order| => Stock(t.order[i], t.stocks[t.order[i]]));
    DistinctCardinality(t.order);
    assert t.stocks.Keys == set x | x in t.order;
    forall k | k in t.stocks
      ensures Stock(k, t.stocks[k]) in r
    {
      var i :| 0 <= i < |t.order| && t.order[i] == k;
      assert r[i] == Stock(k, t.stocks[k]);
    }
    r
  }

  /** The number of broadcasts for `symbol` in a log. */
  function BroadcastCount(log: seq<Stock>, symbol: string): nat {
    if |log| == 0 then 0
    else (if log[0].symbol == symbol then 1 else 0) + BroadcastCount(log[1..], symbol)
  }

  lemma {:induction false} BroadcastCountAppend(a: seq<Stock>, b: seq<Stock>, symbol: string)
    ensures BroadcastCount(a + b, symbol) == BroadcastCount(a, symbol) + BroadcastCount(b, symbol)
  {
    if |a| == 0 {
      assert a + b == b;
    } else {
      assert (a + b)[1..] == a[1..] + b;
      BroadcastCountAppend(a[1..], b, symbol);
    }
  }

  /** A log without an entry for `symbol` counts no broadcast for it. */
  lemma {:induction false} BroadcastCountAbsent(log: seq<Stock>, symbol: string)
    requires forall j :: 0 <= j < |log| ==> log[j].symbol != symbol
    ensures BroadcastCount(log, symbol) == 0
  {
    if |log| > 0 {
      BroadcastCountAbsent(log[1..], symbol);
    }
  }

  /** Visiting one stock: apply the mutation rule to its price and, when the
      rule reports an update, broadcast the stock with its new price. */
  function Step(t: Ticker, s: string, dr: Draws): (r: Ticker)
    requires s in t.stocks
    ensures r.order == t.order && r.updating == t.updating
    ensures r.stocks.Keys == t.stocks.Keys
    ensures forall k :: k in t.stocks && k != s ==> r.stocks[k] == t.stocks[k]
    ensures r.log == t.log || r.log == t.log + [Stock(s, r.stocks[s])]
  {
    var o := TryUpdateStockPrice(t.stocks[s], dr);
    var log := if o.updated then t.log + [Stock(s, o.price)] else t.log;
    t.(stocks := t.stocks[s := o.price], log := log)
  }

  /** One pass of the update cycle over the symbols `todo`, the draws of
      `draws[i]` going to `todo[i]`. The pass keeps the set of symbols, the
      enumeration order and the "updating" flag, only appends to the log,
      leaves the stocks it does not visit alone, and broadcasts only stocks
      it visits. */
  function Visit(t: Ticker, todo: seq<string>, draws: seq<Draws>): (r: Ticker)
    requires |draws| == |todo|
    requires forall i :: 0 <= i < |todo| ==> todo[i] in t.stocks
    ensures r.order == t.order && r.updating == t.updating
    ensures r.stocks.Keys == t.stocks.Keys
    ensures |t.log| <= |r.log| && r.log[..|t.log|] == t.log
    ensures forall k :: k in t.stocks && k !in todo ==> r.stocks[k] == t.stocks[k]
    ensures forall j :: |t.log| <= j < |r.log| ==> r.log[j].symbol in todo
    decreases |todo|
  {
    if |todo| == 0 then t
    else Visit(Step(t, todo[0], draws[0]), todo[1..], draws[1..])
  }

  /** The broadcasts a pass added to the log. */
  function Added(before: Ticker, after: Ticker): seq<Stock>
    requires |before.log| <= |after.log|
  {
    after.log[|before.log|..]
  }

  /** The broadcasts of a pass are those of its first step followed by those
      of the rest of the pass. */
  lemma AddedSplit(t: Ticker, todo: seq<string>, draws: seq<Draws>)
    requires |draws| == |todo| > 0
    requires forall i :: 0 <= i < |todo| ==> todo[i] in t.stocks
    ensures var t1 := Step(t, todo[0], draws[0]);
            var r := Visit(t, todo, draws);
            |t.log| <= |t1.log| <= |r.log|
            && Added(t, r) == Added(t, t1) + Added(t1, r)
  {
    var t1 := Step(t, todo[0], draws[0]);
    var r := Visit(t1, todo[1..], draws[1..]);
    assert r.log[..|t1.log|] == t1.log;
  }

  /** A pass over distinct symbols gives each visited stock exactly the price
      the mutation rule computes from its own price and its own draws. */
  lemma {:induction false} VisitPrices(t: Ticker, todo: seq<string>, draws: seq<Draws>)
    requires |draws| == |todo|
    requires forall i :: 0 <= i < |todo| ==> todo[i] in t.stocks
    requires Distinct(todo)
    ensures var r := Visit(t, todo, draws);
            forall i :: 0 <= i < |todo| ==>
              r.stocks[todo[i]] == TryUpdateStockPrice(t.stocks[todo[i]], draws[i]).price
    decreases |todo|
  {
    if |todo| > 0 {
      var t1 := Step(t, todo[0], draws[0]);
      var rest, restDraws := todo[1..], draws[1..];
      VisitPrices(t1, rest, restDraws);
      assert todo[0] !in rest;
      forall i | 1 <= i < |todo|
        ensures todo[i] == rest[i - 1] && draws[i] == restDraws[i - 1] && todo[i] != todo[0]
      {
      }
    }
  }

  /** A pass over distinct symbols broadcasts each visited stock exactly once
      when the mutation rule reports an update for it and never otherwise,
      whether or not its price moved. */
  lemma {:induction false} VisitBroadcasts(t: Ticker, todo: seq<string>, draws: seq<Draws>)
    requires |draws| == |todo|
    requires forall i :: 0 <= i < |todo| ==> todo[i] in t.stocks
    requires Distinct(todo)
    ensures var r := Visit(t, todo, draws);
            forall i :: 0 <= i < |todo| ==>
              BroadcastCount(Added(t, r), todo[i])
                == if TryUpdateStockPrice(t.stocks[todo[i]], draws[i]).updated then 1 else 0
    decreases |todo|
  {
    if |todo| > 0 {
      var s := todo[0];
      var t1 := Step(t, s, draws[0]);
      var rest, restDraws := todo[1..], draws[1..];
      var r := Visit(t, todo, draws);
      VisitBroadcasts(t1, rest, restDraws);
      AddedSplit(t, todo, draws);
      assert s !in rest;
      forall i | 0 <= i < |todo|
        ensures BroadcastCount(Added(t, r), todo[i])
                  == if TryUpdateStockPrice(t.stocks[todo[i]], draws[i]).updated then 1 else 0
      {
        BroadcastCountAppend(Added(t, t1), Added(t1, r), todo[i]);
        if i == 0 {
          BroadcastCountAbsent(Added(t1, r), s);
        } else {
          assert todo[i] == rest[i - 1] && draws[i] == restDraws[i - 1] && todo[i] != s;
        }
      }
    }
  }

  /** Every broadcast of a pass over distinct symbols carries the price its
      stock has at the end of the pass. */
  lemma {:induction false} VisitCarriesFinalPrice(t: Ticker, todo: seq<string>, draws: seq<Draws>)
    requires |draws| == |todo|
    requires forall i :: 0 <= i < |todo| ==> todo[i] in t.stocks
    requires Distinct(todo)
    ensures var r := Visit(t, todo, draws);
            forall j :: |t.log| <= j < |r.log| ==> r.log[j].price == r.stocks[r.log[j].symbol]
    decreases |todo|
  {
    if |todo| > 0 {
      var s := todo[0];
      var t1 := Step(t, s, draws[0]);
      var rest, restDraws := todo[1..], draws[1..];
      var r := Visit(t, todo, draws);
      VisitCarriesFinalPrice(t1, rest, restDraws);
      assert r == Visit(t1, rest, restDraws);
      assert s !in rest;
      assert r.stocks[s] == t1.stocks[s];
      assert r.log[..|t1.log|] == t1.log;
      forall j | |t.log| <= j < |r.log|
        ensures r.log[j].price == r.stocks[r.log[j].symbol]
      {
        if j < |t1.log| {
          // The first step broadcast `s` with the price it keeps to the end.
          assert r.log[j] == t1.log[j] == Stock(s, t1.stocks[s]);
        }
      }
    }
  }

  /** One update cycle (`UpdateStockPrices`). If the flag is already set the
      cycle returns without touching anything. Otherwise it sets the flag,
      passes over every stock in enumeration order, and clears the flag:
      afterwards the flag is clear, the symbols and their order are those of
      before, and the log has only grown. */
  function UpdateStockPrices(t: Ticker, draws: seq<Draws>): (r: Ticker)
    requires Valid(t)
    requires |draws| == |t.order|
    ensures Valid(r)
    ensures r.order == t.order && r.stocks.Keys == t.stocks.Keys
    ensures t.updating ==> r == t
    ensures !t.updating ==> !r.updating
    ensures |t.log| <= |r.log| && r.log[..|t.log|] == t.log
  {
    if t.updating then t
    else
      var busy := t.(updating := true);
      var done := Visit(busy, t.order, draws);
      done.(updating := false)
  }

  /** What one cycle does to each stock: the stock at position `i` of the
      enumeration gets the mutation rule with the `i`-th draws; it is
      broadcast exactly once if the rule reports an update and not at all
      otherwise; each broadcast carries the price the stock has after the
      cycle, and names a stock of the store. */
  lemma CycleSpec(t: Ticker, draws: seq<Draws>)
    requires Valid(t)
    requires |draws| == |t.order|
    requires !t.updating
    ensures var r := UpdateStockPrices(t, draws);
            forall i :: 0 <= i < |t.order| ==>
              var o := TryUpdateStockPrice(t.stocks[t.order[i]], draws[i]);
              && r.stocks[t.order[i]] == o.price
              && BroadcastCount(Added(t, r), t.order[i]) == (if o.updated then 1 else 0)
    ensures var r := UpdateStockPrices(t, draws);
            forall j :: |t.log| <= j < |r.log| ==>
              r.log[j].symbol in t.stocks && r.log[j].price == r.stocks[r.log[j].symbol]
  {
    var busy := t.(updating := true);
    VisitPrices(busy, t.order, draws);
    VisitBroadcasts(busy, t.order, draws);
    VisitCarriesFinalPrice(busy, t.order, draws);
    var done := Visit(busy, t.order, draws);
    assert Added(t, UpdateStockPrices(t, draws)) == Added(busy, done);
  }

  /** Keyed view of a cycle: a stock whose price changed was broadcast once,
      and a stock that was not broadcast kept its price. The converse does
      not hold (see `Mutation.UpdatedWithZeroChange`). */
  lemma ChangedImpliesBroadcast(t: Ticker, draws: seq<Draws>)
    requires Valid(t)
    requires |draws| == |t.order|
    requires !t.updating
    ensures var r := UpdateStockPrices(t, draws);
            forall k :: k in t.stocks ==>
              (r.stocks[k] != t.stocks[k] ==> BroadcastCount(Added(t, r), k) == 1)
              && (BroadcastCount(Added(t, r), k) == 0 ==> r.stocks[k] == t.stocks[k])
  {
    CycleSpec(t, draws);
    var r := UpdateStockPrices(t, draws);
    forall k | k in t.stocks
      ensures r.stocks[k] != t.stocks[k] ==> BroadcastCount(Added(t, r), k) == 1
      ensures BroadcastCount(Added(t, r), k) == 0 ==> r.stocks[k] == t.stocks[k]
    {
      var i :| 0 <= i < |t.order| && t.order[i] == k;
    }
  }

  /** Magnitude bound of a cycle: with non-negative prices and draws in
      range, every stock moves by at most its price times `RangePercent`,
      rounded to the cent. */
  lemma CycleBound(t: Ticker, draws: seq<Draws>)
    requires Valid(t)
    requires |draws| == |t.order|
    requires !t.updating
    requires forall k :: k in t.stocks ==> 0 <= t.stocks[k]
    requires forall i :: 0 <= i < |draws| ==> ValidDraws(draws[i])
    ensures var r := UpdateStockPrices(t, draws);
            forall k :: k in t.stocks ==>
              var bound := RoundHalfEven(t.stocks[k] as real * RangePercent);
              t.stocks[k] - bound <= r.stocks[k] <= t.stocks[k] + bound
  {
    CycleSpec(t, draws);
    var r := UpdateStockPrices(t, draws);
    forall k | k in t.stocks
      ensures var bound := RoundHalfEven(t.stocks[k] as real * RangePercent);
              t.stocks[k] - bound <= r.stocks[k] <= t.stocks[k] + bound
    {
      var i :| 0 <= i < |t.order| && t.order[i] == k;
      MagnitudeBound(t.stocks[k], draws[i]);
    }
  }

  /** A sequence of cycles, one list of draws per tick. */
  function Run(t: Ticker, ticks: seq<seq<Draws>>): (r: Ticker)
    requires Valid(t)
    requires forall n :: 0 <= n < |ticks| ==> |ticks[n]| == |t.order|
    ensures Valid(r)
    ensures r.order == t.order && r.stocks.Keys == t.stocks.Keys
    ensures !t.updating ==> !r.updating
    ensures |t.log| <= |r.log| && r.log[..|t.log|] == t.log
    decreases |ticks|
  {
    if |ticks| == 0 then t
    else Run(UpdateStockPrices(t, ticks[0]), ticks[1..])
  }

  /** Every state reached from construction by cycles holds exactly the three
      seed symbols, once each, and has the flag clear, so the early return of
      the guard is never taken by a sequential run. */
  lemma Reachable(ticks: seq<seq<Draws>>)
    requires forall n :: 0 <= n < |ticks| ==> |ticks[n]| == 3
    ensures var r := Run(Init(), ticks);
            && Valid(r)
            && r.stocks.Keys == {"MSFT", "APPL", "GOOG"}
            && |r.order| == 3
            && !r.updating
  {
    var t0 := Init();
    assert |t0.order| == 3;
    assert t0.stocks.Keys == {"MSFT", "APPL", "GOOG"};
  }

  /** The snapshot lists the stocks in enumeration order. */
  lemma GetAllStocksInOrder(t: Ticker)
    requires Valid(t)
    ensures |GetAllStocks(t)| == |t.order|
    ensures forall i :: 0 <= i < |t.order| ==> GetAllStocks(t)[i] == Stock(t.order[i], t.stocks[t.order[i]])
  {
  }

  /** Position `i` of the snapshot of a fresh ticker holds the `i`-th seed. */
  lemma InitialSnapshotAt(i: nat)
    requires i < |Seeds|
    ensures |GetAllStocks(Init())| == |Seeds|
    ensures GetAllStocks(Init())[i] == Seeds[i]
  {
    GetAllStocksInOrder(Init());
  }

  /** Before any tick the snapshot holds exactly the three seeds with their
      seed prices. It lists them in the model's enumeration order, which is
      the seeding order; the concurrent dictionary's own order is not
      modelled. */
  lemma InitialSnapshot()
    ensures GetAllStocks(Init()) == Seeds
  {
    InitialSnapshotAt(0);
    InitialSnapshotAt(1);
    InitialSnapshotAt(2);
  }
}
